=== FILE: README.md ===
# LA crime database: ingestion and queries, in Dafny

This project models the ingestion-and-query layer of the LA crime predictor
(`LA_crime_predictor/crime_db.py`):

- the three classification rules, which turn a time of day, a victim age and
  a crime code into the labels `Crime Period`, `Vict Age Group` and `Risk`;
- row preparation (`prepare_df`). It projects a raw incident row onto ten
  columns and maps the victim-sex code through a lookup table. It slices the
  year out of `DATE OCC`, zero-pads and parses `TIME OCC` as HHMM, and inserts
  the three labels, giving a 14-column record;
- the bulk load (`create_db`). Each yearly file is read in chunks of 100000
  rows, and every chunk is prepared and appended to the `crimes` table;
- the filters of the two read queries: `query_years` and the box-and-years
  filter of `query_address`.

The table is a `seq<Record>` in the order records were appended. A query is
a filter over it.

Modules, one file each:

- `results.dfy` (`Results`): `Option`, `Result`, and `MapAll`, which maps a
  fallible step over a sequence and stops at the first error.
- `text.dfy` (`Text`): decimal rendering (Python `str` of an int), `zfill`,
  Python slicing, and the text order of SQLite's BINARY collation.
- `classify.dfy` (`Classify`): the three rules, and the intervals they carve out.
- `prepare.dfy` (`Prepare`): the raw row, the stored record, and row and
  chunk preparation.
- `loader.dfy` (`Loader`): chunking, the append loop as a function, and the
  same loop as a method.
- `queries.dfy` (`Queries`): the two queries, as the code runs them and as
  they are meant.

The victim-sex lookup table covers M, F, X, H, `-` and an empty cell. The
column is mapped through that dictionary, so any other code gets no value,
and `Prepare.SexOf` returns `None` for it.

Units and encodings used by the model:

- Coordinates are integers in ten-thousandths of a degree, so the ±0.01°
  box of the address query is ±100 units.
- A time of day is an hour, minute and second. The time parsed from
  `TIME OCC` always has second 0 and no microseconds.
- An empty `Vict Age` cell is `None`. Every comparison with a missing value
  is false, so the age rule falls through to its last branch, "senior".
- An empty `Crm Cd` cell is `None` too, and the risk rule falls through to
  its last branch, "Light", in the same way.
- An empty `LAT` or `LON` cell is `None`. It is stored as NULL, every
  comparison with NULL fails, and so such a record is never inside the box
  of the address query.

## Model

| member | source | states |
|---|---|---|
| Classify.Before | LA_crime_predictor/crime_db.py:33-39 | Comparing two times field by field (hour, then minute, then second) orders them exactly as their seconds since midnight |
| Classify.CrimePeriod | LA_crime_predictor/crime_db.py:33-44 | The period of a time is the interval of [05:00,12:00), [12:00,17:00) and [17:00,21:00) that holds it, and night outside all three, so every time gets exactly one label. Read by the hour: morning iff 5–11, afternoon iff 12–16, evening iff 17–20, night iff before 5 or from 21 |
| Classify.CrimePeriodBoundaries | LA_crime_predictor/crime_db.py:33-44 | By the stored label, each boundary instant belongs to the interval it opens (05:00:00 "morning", 12:00:00 "afternoon", 17:00:00 "evening", 21:00:00 "night"), and the second before it to the interval before |
| Classify.VictimAgeGroup | LA_crime_predictor/crime_db.py:62-75 | The age group is the bin of [0,18), [18,30), [30,45) and [45,60) that holds the age. An age is senior iff it is negative or at least 60: the last branch catches negative ages too |
| Classify.VictimAgeGroupBoundaries | LA_crime_predictor/crime_db.py:62-75 | By the stored label: 0 and 17 are "child", 18 and 29 "young adult", 30 and 44 "adult", 45 and 59 "older adult", 60 and -1 "senior" |
| Classify.Risk | LA_crime_predictor/crime_db.py:94-101 | A code's severity (Serious 2, Medium 1, Light 0) is the number of the thresholds 300 and 500 that lie above it |
| Classify.RiskMonotone | LA_crime_predictor/crime_db.py:90-101 | A larger crime code never gets a more severe tier |
| Prepare.RiskOf | LA_crime_predictor/crime_db.py:94-101 | The risk of a possibly empty Crm Cd cell is Light iff the cell is empty or the code is at least 500; for a present code the severity is the number of thresholds above it |
| Classify.RiskBoundaries | LA_crime_predictor/crime_db.py:94-101 | By the stored label: 299 is "Serious", 300 and 499 "Medium", 500 "Light" |
| Prepare.PreparedColumns | LA_crime_predictor/crime_db.py:113-140 | The ten recognised columns plus the four inserts, performed in the code's order, give the 14-column order DATE OCC, TIME OCC, Crime Period, AREA NAME, Crm Cd, Risk, Crm Cd Desc, Vict Age, Vict Age Group, Vict Sex, LOCATION, LAT, LON, year |
| Prepare.SexOf | LA_crime_predictor/crime_db.py:133 | M iff Male, F iff Female, and X, H, `-` or an empty cell iff Unknown. Every other code has no value |
| Text.Slice | LA_crime_predictor/crime_db.py:134 | Python slicing `s[i:j]` with non-negative bounds: the bounds are clamped to the length, so a slice past the end is cut short and one that starts past the end is empty |
| Prepare.YearOfDate | LA_crime_predictor/crime_db.py:134 | The year has at most 4 characters. For a date of 10 or more characters it has exactly 4, and the date is its first six characters, then the year, then the rest. A shorter date gives what follows position 6, and a date of at most 6 characters gives the empty text |
| Prepare.YearOfDateExample | LA_crime_predictor/crime_db.py:134 | "03/15/2022" and "03/15/2022 12:00:00 AM" both give the year "2022"; "3/5/2022" gives "22" and "3/5/22" gives "" |
| Text.IntToDecimal | LA_crime_predictor/crime_db.py:135 | `str` of an int: it starts with '-' iff the value is negative. A non-negative value renders as digits spelling it, and a negative one as '-' before the digits of its magnitude |
| Text.NatToDecimal | LA_crime_predictor/crime_db.py:135 | The decimal digits of a natural number spell its value and have no leading zero |
| Text.DecimalLength | LA_crime_predictor/crime_db.py:135 | A number has at most k decimal digits iff it is below 10^k |
| Text.ZFill | LA_crime_predictor/crime_db.py:135 | `zfill`: the result is as long as the width or the text, whichever is longer. A leading '-' stays in front, and a text already as wide is unchanged |
| Text.ZFillDigits | LA_crime_predictor/crime_db.py:135 | Zero-padding a digit string keeps it digits and keeps its value |
| Prepare.TimeOccTextDigits | LA_crime_predictor/crime_db.py:135 | A value in 0..9999, padded, is four digits spelling the value |
| Prepare.TimeOccTextRejects | LA_crime_predictor/crime_db.py:135 | A negative value, or one of 10000 or more, never pads to four digits |
| Prepare.ParseHHMM | LA_crime_predictor/crime_db.py:136 | On the texts zero-padding yields (at least four characters), the `%H%M` format accepts a text iff it has four characters, it is all digits, its first two spell an hour below 24 and its last two a minute below 60. The time then has second 0 and its HHMM value is the text's value |
| Prepare.ParseTimeOcc | LA_crime_predictor/crime_db.py:135-136 | TIME OCC parses iff it is a valid HHMM value (non-negative, hour below 24, minute below 60). It then gives that hour and minute with second 0; otherwise the error names the value |
| Prepare.TimeOccRoundTrip | LA_crime_predictor/crime_db.py:135-136 | Reading back the HHMM value of any time with zero seconds gives that time again |
| Prepare.TimeOccExample | LA_crime_predictor/crime_db.py:135-136 | 830 pads to "0830" and parses to 08:30:00; 2400 and 1260 are errors |
| Prepare.AgeGroupOf | LA_crime_predictor/crime_db.py:62-75 | A possibly empty age cell is senior iff it is empty, negative or at least 60; a present age gets the bin of [0,18), [18,30), [30,45), [45,60) that holds it |
| Prepare.PrepareRow | LA_crime_predictor/crime_db.py:132-140 | A row fails iff its TIME OCC is invalid, and then with that value. Otherwise the record keeps every raw field (sex through the lookup, time as the value it was read from), and its labels and year are the rules applied to its own fields |
| Prepare.PrepareRowInjective | LA_crime_predictor/crime_db.py:132-140 | Two rows that prepare to the same record agree on every recognised field except the raw sex code |
| Prepare.PrepareIgnoresOtherColumns | LA_crime_predictor/crime_db.py:132 | Columns outside the recognised ten do not affect the record |
| Prepare.WellFormedDateYear | LA_crime_predictor/crime_db.py:134 | A date with digits at positions 6–9 stores a four-digit year |
| Prepare.SampleRowPrepares | LA_crime_predictor/crime_db.py:132-140 | A row dated 03/15/2022 at 830 with age 25, code 440 and sex F prepares to year "2022", 08:30:00, morning, young adult, Medium, Female |
| Prepare.PrepareChunk | LA_crime_predictor/crime_db.py:135-136 | A chunk prepares iff every row has a valid time. Then the records are the rows' own records, row for row, in order. Otherwise the error is that of the first row with an invalid time (it is invalid and all of its predecessors are valid), and the chunk yields no records |
| Prepare.PrepareChunkConcat | LA_crime_predictor/crime_db.py:132-140 | Preparing two row sequences joined is preparing each and joining the results; the first error wins |
| Results.MapAllConcat | LA_crime_predictor/crime_db.py:132-140 | Mapping a fallible row step over joined sequences is mapping over each and joining the results |
| Loader.Chunks | LA_crime_predictor/crime_db.py:155 | Reading in chunks gives non-empty chunks of at most the chunk size, all full except the last, which together are the rows in order |
| Loader.FileChunks | LA_crime_predictor/crime_db.py:154-156 | The chunks of all files, file after file, together are all the rows of all files in order |
| Loader.AppendChunks | LA_crime_predictor/crime_db.py:154-158 | Appending chunks only ever extends the table: the old table is a prefix of the result, which gains at most one record per row |
| Loader.AppendChunksConcat | LA_crime_predictor/crime_db.py:154-158 | Appending a list of chunks is appending its first part, then, if that completed, its second part |
| Loader.AppendChunksLoaded | LA_crime_predictor/crime_db.py:154-158 | A load completes iff every row prepares. It then leaves the old table followed by every row's record, in order, one per row |
| Loader.AppendChunksAborted | LA_crime_predictor/crime_db.py:154-158 | A failed load leaves the old table followed by the records of a prefix of the rows that all prepare, and the rows after that prefix include one that does not |
| Loader.AppendChunksFailingChunk | LA_crime_predictor/crime_db.py:154-158 | A failed load stops at one chunk: all rows of the chunks before it prepare and their records are appended in order, that chunk fails, none of its records is stored, and the load reports its error |
| Loader.LoadFiles | LA_crime_predictor/crime_db.py:154-158 | Loading files with any chunk size completes iff every row prepares; the old table stays a prefix, and a completed load appends every row's record in order |
| Loader.ChunkSizeIrrelevant | LA_crime_predictor/crime_db.py:155 | Any two chunk sizes give the same success or failure and, on success, the same table |
| Loader.LoadFilesSpec | LA_crime_predictor/crime_db.py:154-158 | With any chunk size, the load of the crime files completes iff every row has a valid time, and it then appends every row's record in order |
| Loader.CreateDb | LA_crime_predictor/crime_db.py:145-158 | The load of the crime files completes iff every row has a valid time, and the old table always stays a prefix |
| Loader.CreateDbSpec | LA_crime_predictor/crime_db.py:154-158 | The load completes iff every row of every file has a valid time, and it then grows the table by exactly one record per row, in file and row order. A failed load stops at one chunk of at most 100000 rows: the chunks before it are all valid and appended, that chunk holds an invalid row, none of its records is stored, and the error is that chunk's |
| Loader.CreateDbAppendsPrefix | LA_crime_predictor/crime_db.py:154-158 | Whether it completes or stops, the load of the crime files leaves the old table followed by the records of a prefix of the rows, all valid, and the whole of the rows when it completes |
| Loader.CreateDbFailingChunk | LA_crime_predictor/crime_db.py:154-158 | A failed load of the crime files stops at one chunk of the file chunks: the chunks before it are valid and appended whole, it is not valid, and the error is its own |
| Loader.AppendTwice | LA_crime_predictor/crime_db.py:158 | Appending the same chunks twice stores their records twice |
| Loader.ReloadDuplicates | LA_crime_predictor/crime_db.py:158 | Loading the same files again stores every record a second time: nothing is deduplicated |
| Loader.LoadFile | LA_crime_predictor/crime_db.py:155-158 | The loop over one file's chunks leaves the load exactly where the append function stands after that file, or stops with the same failure |
| Loader.BulkLoad | LA_crime_predictor/crime_db.py:154-158 | The nested loop over files and chunks computes exactly the append function over all chunks of all files |
| Loader.RunCreateDb | LA_crime_predictor/crime_db.py:145-158 | The loop with 100000-row chunks completes iff every row has a valid time, and it then appends every row's record in order |
| Queries.Filter | LA_crime_predictor/crime_db.py:226-232 | A selection returns exactly the records its test accepts, each as often as it is stored |
| Queries.FilterConcat | LA_crime_predictor/crime_db.py:226-232 | Selecting from a table grown by appending gives the old answer followed by the answer over the new records |
| Queries.QueryYearsAsWritten | LA_crime_predictor/crime_db.py:226-232 | The year query as written returns exactly the stored records whose year text lies between the bounds' decimal texts, compared character by character, each as often as it is stored |
| Queries.QueryYears | LA_crime_predictor/crime_db.py:205-232 | The numeric year query returns exactly the stored records with b ≤ year ≤ e (both bounds included), each as often as stored, and nothing when e < b |
| Queries.YearTextIsNumeric | LA_crime_predictor/crime_db.py:230 | For a four-digit year and four-digit bounds, the text comparison agrees with the numeric one |
| Queries.QueryYearsAgree | LA_crime_predictor/crime_db.py:226-232 | With bounds from 1000 to 9999 and a table of four-digit years, the query as written and the numeric query return the same records in the same order |
| Queries.QueryYearsShortBound | LA_crime_predictor/crime_db.py:230 | A record of year "2010" is missed by the query from 999 to 2022 as written, but found by the numeric query |
| Text.LexLe | LA_crime_predictor/crime_db.py:230 | The BINARY text order: it holds whenever the first text is a prefix of the second (equal texts included), and fails when the second is a proper prefix of the first |
| Queries.QueryYearsAfterAppend | LA_crime_predictor/crime_db.py:230 | A year query over an appended table gives the old answer followed by the answer over the appended records |
| Queries.QueryAddress | LA_crime_predictor/crime_db.py:183-199 | The address query fails iff the geocoder finds nothing. Otherwise it returns exactly the records whose year text lies between "2021" and "2022" and whose LAT and LON are present and within 0.01° of the position, edges included, each as often as it is stored |
| Queries.QueryAddressSpec | LA_crime_predictor/crime_db.py:186-197 | On a table of four-digit years, the address query is the numeric year query for 2021–2022 narrowed to the box, in table order |
| Queries.PreparedStoreWellFormed | LA_crime_predictor/crime_db.py:134 | Records prepared from well-formed dates all have four-digit years |
| Queries.LoadKeepsWellFormed | LA_crime_predictor/crime_db.py:154-158 | Loading files whose dates are well formed keeps every year in the table four digits, whether the load completes or stops |
| Queries.LoadThenQuery | LA_crime_predictor/crime_db.py:226-232 | After a complete load, every loaded row with a well-formed date is found by the numeric year query for its own year |
| Queries.LoadThenQueryAsWritten | LA_crime_predictor/crime_db.py:226-232 | After a complete load, every loaded row with a well-formed date whose year has no leading zero is found by the year query as written, for its own year |
| Queries.OwnYearMatches | LA_crime_predictor/crime_db.py:230 | A four-digit year without a leading zero lies, as text, between the decimal texts of its own value |
| Queries.QueryYearsLeadingZero | LA_crime_predictor/crime_db.py:230 | A record of year "0999" is missed by the query from 999 to 999 as written, but found by the numeric query |

## Left out

- SQLite, pandas and the file system are not modelled. The model has no
  connection, no CSV parsing (rows arrive as parsed values) and no `to_sql`
  column typing. The table is a sequence, and a query is a filter over it.
- The list of fourteen yearly file names is not modelled: the files arrive
  as a parameter, in the order they are listed.
- The geocoder is a network call. Its answer is a parameter, `None` when
  the address is not found (the code then fails on the missing result).
- Queries.QueryAddress: coordinates are scaled integers, and the rounding
  of the floating-point `lat ± .01` bounds is not modelled.
- Queries.QueryYearsAsWritten: the order of the returned rows is modelled
  as table order. SQL without ORDER BY does not promise an order.
- Prepare.PrepareRow: a missing `DATE OCC` is not modelled; the date is
  always a string. A missing `TIME OCC` is not modelled either: it makes
  the column floating point, so `str(x)` renders as "830.0", which never
  parses.
- Prepare.PrepareRow: how the time and the sex are stored as SQLite values
  (the text form the database driver gives a time) is not modelled. The
  record keeps them as typed values, and each label as an enumeration
  whose `Label()` is the text stored in its column.
- Prepare.PrepareRow: `AREA NAME`, `Crm Cd Desc` and `LOCATION` are never
  missing in the model; each is always a string. A missing one would be
  copied to the record as NULL without affecting any label.
- Prepare.ParseHHMM: texts shorter than four characters, which `%H%M` can
  accept through its one-digit alternatives ("830" as 08:30), are outside
  its domain, because zero-padding to width 4 never produces one.
- A missing required column (a KeyError in the projection) is not
  modelled: every raw row carries the ten columns.
- Loader.CreateDbSpec: the failure of a chunk is an outcome (`Aborted`)
  rather than an exception. The table keeps what earlier chunks appended,
  because each `to_sql` call commits on its own.
- `ML.py`, `NN.py`, `crime_prob.py` and `crime_plots.py` are not part of
  this model. They are model training, floating-point probability and
  plotting.

## Findings

| source | as written | input that shows it | evidently intended | confidence | as-written member | corrected member |
|---|---|---|---|---|---|---|
| LA_crime_predictor/crime_db.py:230 | `year` is stored as text, so `C.year <= e AND C.year >= b` compares it with the bounds' decimal text, character by character | `query_years(999, 2022)` over a table holding year "2010": as text "2010" sorts before "999", so the record is dropped; likewise `query_years(999, 999)` drops year "0999", since "999" sorts after "0999" | years between the bounds numerically, as the docstring says ("during and between the start and end years"), so 999 ≤ 2010 ≤ 2022 keeps it | medium, not executed | Queries.QueryYearsAsWritten, shown by Queries.QueryYearsShortBound and Queries.QueryYearsLeadingZero | Queries.QueryYears |

=== FILE: classify.dfy ===
/** The three bucketing rules that turn a time of day, a victim age and a
    crime code into categorical labels. Each is total: every input gets exactly
    one label, with half-open intervals and a catch-all last branch. */
module Classify {
  import opened Results

  type Hour = h: int | 0 <= h < 24
  type Minute = m: int | 0 <= m < 60
  type Second = s: int | 0 <= s < 60

  /** A wall-clock time, as Python's `datetime.time` (microseconds are always 0 here). */
  datatype TimeOfDay = TimeOfDay(hour: Hour, minute: Minute, second: Second)

  /** `a < b` on times: Python compares hour, then minute, then second, which
      is the order of their positions on the clock. */
  predicate Before(a: TimeOfDay, b: TimeOfDay)
    ensures Before(a, b) <==> SecondOfDay(a) < SecondOfDay(b)
  {
    || a.hour < b.hour
    || (a.hour == b.hour && a.minute < b.minute)
    || (a.hour == b.hour && a.minute == b.minute && a.second < b.second)
  }

  /** Seconds elapsed since midnight. */
  function SecondOfDay(t: TimeOfDay): (n: nat)
    ensures n < 24 * 3600
  {
    t.hour * 3600 + t.minute * 60 + t.second
  }

  /** Half-open intervals [bounds[i], bounds[i+1]) over an increasing list of bounds. */
  predicate Increasing(bounds: seq<int>) {
    forall i, j :: 0 <= i < j < |bounds| ==> bounds[i] < bounds[j]
  }

  /** The index of the half-open interval of `bounds` that holds `x`, or None
      when `x` lies below the first bound or at or above the last. */
  function Bucket(bounds: seq<int>, x: int): (r: Option<nat>)
    requires Increasing(bounds)
    ensures r.Some? ==> r.value + 1 < |bounds| && bounds[r.value] <= x < bounds[r.value + 1]
    ensures r.None? <==> |bounds| < 2 || x < bounds[0] || bounds[|bounds| - 1] <= x
  {
    if |bounds| < 2 then None
    else if x < bounds[1] then (if bounds[0] <= x then Some(0) else None)
    else match Bucket(bounds[1..], x)
      case Some(i) => Some(i + 1)
      case None => None
  }

  // ---------------------------------------------------------------- crime period

  datatype Period = Morning | Afternoon | Evening | Night {
    /** The label stored in the `Crime Period` column. */
    function Label(): string {
      match this
      case Morning => "morning"
      case Afternoon => "afternoon"
      case Evening => "evening"
      case Night => "night"
    }
  }

  /** The time-of-day rule, branch for branch: three half-open daytime
      intervals tested in order, and night for everything else. */
  function CrimePeriod(x: TimeOfDay): (p: Period)
    ensures p == PeriodOfBucket(Bucket(PeriodBounds, SecondOfDay(x)))
    ensures p == Morning <==> 5 <= x.hour < 12
    ensures p == Afternoon <==> 12 <= x.hour < 17
    ensures p == Evening <==> 17 <= x.hour < 21
    ensures p == Night <==> x.hour < 5 || 21 <= x.hour
  {
    if Before(x, TimeOfDay(12, 0, 0)) && !Before(x, TimeOfDay(5, 0, 0)) then Morning
    else if Before(x, TimeOfDay(17, 0, 0)) && !Before(x, TimeOfDay(12, 0, 0)) then Afternoon
    else if Before(x, TimeOfDay(21, 0, 0)) && !Before(x, TimeOfDay(17, 0, 0)) then Evening
    else Night
  }

  /** 05:00, 12:00, 17:00 and 21:00 in seconds since midnight. */
  const PeriodBounds: seq<int> := [5 * 3600, 12 * 3600, 17 * 3600, 21 * 3600]

  function PeriodOfBucket(b: Option<nat>): Period {
    match b
    case Some(0) => Morning
    case Some(1) => Afternoon
    case Some(2) => Evening
    case _ => Night
  }

  /** The boundary instants, by the label stored for them: each belongs to
      the interval it opens. */
  lemma CrimePeriodBoundaries()
    ensures CrimePeriod(TimeOfDay(5, 0, 0)).Label() == "morning"
    ensures CrimePeriod(TimeOfDay(11, 59, 59)).Label() == "morning"
    ensures CrimePeriod(TimeOfDay(12, 0, 0)).Label() == "afternoon"
    ensures CrimePeriod(TimeOfDay(16, 59, 59)).Label() == "afternoon"
    ensures CrimePeriod(TimeOfDay(17, 0, 0)).Label() == "evening"
    ensures CrimePeriod(TimeOfDay(20, 59, 59)).Label() == "evening"
    ensures CrimePeriod(TimeOfDay(21, 0, 0)).Label() == "night"
    ensures CrimePeriod(TimeOfDay(4, 59, 59)).Label() == "night"
  {
  }

  // ---------------------------------------------------------------- victim age group

  datatype AgeGroup = Child | YoungAdult | Adult | OlderAdult | Senior {
    /** The label stored in the `Vict Age Group` column. */
    function Label(): string {
      match this
      case Child => "child"
      case YoungAdult => "young adult"
      case Adult => "adult"
      case OlderAdult => "older adult"
      case Senior => "senior"
    }
  }

  /** The age rule, branch for branch: four half-open bins from 0 to 60, and
      senior for everything else. */
  function VictimAgeGroup(x: int): (g: AgeGroup)
    ensures g == AgeGroupOfBucket(Bucket(AgeBounds, x))
    ensures g == Senior <==> x < 0 || 60 <= x
  {
    if x < 18 && x >= 0 then Child
    else if x < 30 && x >= 18 then YoungAdult
    else if x < 45 && x >= 30 then Adult
    else if x < 60 && x >= 45 then OlderAdult
    else Senior
  }

  const AgeBounds: seq<int> := [0, 18, 30, 45, 60]

  function AgeGroupOfBucket(b: Option<nat>): AgeGroup {
    match b
    case Some(0) => Child
    case Some(1) => YoungAdult
    case Some(2) => Adult
    case Some(3) => OlderAdult
    case _ => Senior
  }

  lemma VictimAgeGroupBoundaries()
    ensures VictimAgeGroup(0).Label() == "child" && VictimAgeGroup(17).Label() == "child"
    ensures VictimAgeGroup(18).Label() == "young adult" && VictimAgeGroup(29).Label() == "young adult"
    ensures VictimAgeGroup(30).Label() == "adult" && VictimAgeGroup(44).Label() == "adult"
    ensures VictimAgeGroup(45).Label() == "older adult" && VictimAgeGroup(59).Label() == "older adult"
    ensures VictimAgeGroup(60).Label() == "senior" && VictimAgeGroup(-1).Label() == "senior"
  {
  }

  // ---------------------------------------------------------------- risk

  datatype RiskTier = Serious | Medium | Light {
    /** The label stored in the `Risk` column. */
    function Label(): string {
      match this
      case Serious => "Serious"
      case Medium => "Medium"
      case Light => "Light"
    }

    /** How severe the tier is: higher is more severe. */
    function Severity(): nat {
      match this
      case Serious => 2
      case Medium => 1
      case Light => 0
    }
  }

  /** The crime-code rule, branch for branch: lower codes are the more severe crimes. */
  function Risk(x: int): (t: RiskTier)
    ensures t.Severity() == CountAbove(RiskThresholds, x)
  {
    assert RiskThresholds[1..] == [500] && RiskThresholds[1..][1..] == [];
    if x < 300 then Serious
    else if x >= 300 && x < 500 then Medium
    else Light
  }

  const RiskThresholds: seq<int> := [300, 500]

  /** How many of `thresholds` lie strictly above `x`. */
  function CountAbove(thresholds: seq<int>, x: int): (n: nat)
    ensures n <= |thresholds|
  {
    if |thresholds| == 0 then 0
    else (if x < thresholds[0] then 1 else 0) + CountAbove(thresholds[1..], x)
  }

  lemma {:induction false} CountAboveAntitone(thresholds: seq<int>, x: int, y: int)
    requires x <= y
    ensures CountAbove(thresholds, y) <= CountAbove(thresholds, x)
  {
    if |thresholds| > 0 {
      CountAboveAntitone(thresholds[1..], x, y);
    }
  }

  /** A larger crime code never lands in a more severe tier. */
  lemma RiskMonotone(a: int, b: int)
    requires a <= b
    ensures Risk(b).Severity() <= Risk(a).Severity()
  {
    CountAboveAntitone(RiskThresholds, a, b);
  }

  lemma RiskBoundaries()
    ensures Risk(299).Label() == "Serious" && Risk(300).Label() == "Medium"
    ensures Risk(499).Label() == "Medium" && Risk(500).Label() == "Light"
  {
  }
}

=== FILE: loader.dfy ===
/** The bulk load: every file, read in chunks of a fixed number of rows, has
    each chunk prepared and appended to the one `crimes` table. The table only
    grows; nothing is deduplicated; a chunk that fails to prepare stops the
    load with the chunks before it already appended.

    The loop is stated for any row preparation `prep` (the proofs need only
    that a chunk is prepared row by row, through MapAll); CreateDb and
    BulkLoad instantiate it with PrepareRow. */
module Loader {
  import opened Results
  import opened Prepare

  /** The items of all the pieces, in order. */
  function Flatten<T>(pieces: seq<seq<T>>): seq<T> {
    if |pieces| == 0 then [] else pieces[0] + Flatten(pieces[1..])
  }

  lemma {:induction false} FlattenConcat<T>(a: seq<seq<T>>, b: seq<seq<T>>)
    ensures Flatten(a + b) == Flatten(a) + Flatten(b)
  {
    if |a| == 0 {
      assert a + b == b;
    } else {
      assert (a + b)[1..] == a[1..] + b;
      FlattenConcat(a[1..], b);
    }
  }

  /** Reading rows `size` at a time: non-empty chunks of at most `size` rows,
      all full but the last, which together are the rows in order. */
  function Chunks<T>(rows: seq<T>, size: nat): (chunks: seq<seq<T>>)
    requires 0 < size
    ensures Flatten(chunks) == rows
    ensures forall i :: 0 <= i < |chunks| ==> 0 < |chunks[i]| <= size
    ensures forall i :: 0 <= i < |chunks| - 1 ==> |chunks[i]| == size
    decreases |rows|
  {
    if |rows| == 0 then []
    else if |rows| <= size then
      assert Flatten([rows]) == rows + Flatten([rows][1..]);
      [rows]
    else
      var rest := Chunks(rows[size..], size);
      var all := [rows[..size]] + rest;
      assert all[1..] == rest;
      assert rows[..size] + rows[size..] == rows;
      all
  }

  /** The chunks of every file, file after file. */
  function FileChunks<T>(files: seq<seq<T>>, size: nat): (chunks: seq<seq<T>>)
    requires 0 < size
    ensures Flatten(chunks) == Flatten(files)
    ensures forall i :: 0 <= i < |chunks| ==> 0 < |chunks[i]| <= size
  {
    if |files| == 0 then []
    else
      var first := Chunks(files[0], size);
      var rest := FileChunks(files[1..], size);
      FlattenConcat(first, rest);
      first + rest
  }

  /** The table after a load, and whether the load stopped on a chunk that
      failed to prepare. */
  datatype LoadOutcome<T, E> =
    | Loaded(table: seq<T>)
    | Aborted(table: seq<T>, error: E)

  /** Every row prepares. */
  predicate Prepares<R, T, E>(rows: seq<R>, prep: R -> Result<T, E>) {
    forall i {:trigger prep(rows[i])} :: 0 <= i < |rows| ==> prep(rows[i]).Ok?
  }

  /** Prepare and append one chunk after another. The table is only appended
      to, by at most one record per row. */
  function AppendChunks<R, T(==), E(==)>(table: seq<T>, chunks: seq<seq<R>>, prep: R -> Result<T, E>): (out: LoadOutcome<T, E>)
    ensures table <= out.table
    ensures |out.table| <= |table| + |Flatten(chunks)|
    decreases |chunks|
  {
    if |chunks| == 0 then Loaded(table)
    else match MapAll(chunks[0], prep)
      case Err(e) => Aborted(table, e)
      case Ok(recs) => AppendChunks(table + recs, chunks[1..], prep)
  }

  /** Appending a list of chunks is appending its first part, then its second. */
  lemma {:induction false} AppendChunksConcat<R, T, E>(
    table: seq<T>, a: seq<seq<R>>, b: seq<seq<R>>, prep: R -> Result<T, E>)
    ensures AppendChunks(table, a + b, prep) ==
      match AppendChunks(table, a, prep)
      case Loaded(t) => AppendChunks(t, b, prep)
      case Aborted(t, e) => Aborted(t, e)
    decreases |a|
  {
    if |a| == 0 {
      assert a + b == b;
    } else {
      assert (a + b)[0] == a[0];
      assert (a + b)[1..] == a[1..] + b;
      if MapAll(a[0], prep).Ok? {
        AppendChunksConcat(table + MapAll(a[0], prep).value, a[1..], b, prep);
      }
    }
  }

  lemma PreparesConcat<R, T, E>(a: seq<R>, b: seq<R>, prep: R -> Result<T, E>)
    ensures Prepares(a + b, prep) <==> Prepares(a, prep) && Prepares(b, prep)
  {
    if Prepares(a, prep) && Prepares(b, prep) {
      forall i | 0 <= i < |a + b| ensures prep((a + b)[i]).Ok? {
        if i >= |a| {
          assert (a + b)[i] == b[i - |a|];
        }
      }
    }
    if Prepares(a + b, prep) {
      forall i | 0 <= i < |a| ensures prep(a[i]).Ok? {
        assert (a + b)[i] == a[i];
      }
      forall i | 0 <= i < |b| ensures prep(b[i]).Ok? {
        assert (a + b)[|a| + i] == b[i];
      }
    }
  }

  lemma SplitAfter<R>(a: seq<R>, b: seq<R>, n: nat)
    requires n <= |b|
    ensures (a + b)[..|a| + n] == a + b[..n]
    ensures (a + b)[|a| + n..] == b[n..]
  {
  }

  /** A load succeeds exactly when every row prepares, and then appends every
      row's record, in order, one per row. */
  lemma {:induction false} AppendChunksLoaded<R, T, E>(
    table: seq<T>, chunks: seq<seq<R>>, prep: R -> Result<T, E>)
    ensures AppendChunks(table, chunks, prep).Loaded? <==> Prepares(Flatten(chunks), prep)
    ensures AppendChunks(table, chunks, prep).Loaded? ==>
      AppendChunks(table, chunks, prep).table == table + MapAll(Flatten(chunks), prep).value
    decreases |chunks|
  {
    if |chunks| == 0 {
      assert table + [] == table;
    } else {
      var first, rest := chunks[0], chunks[1..];
      var rows, restRows := Flatten(chunks), Flatten(rest);
      var head, tail := MapAll(first, prep), MapAll(restRows, prep);
      assert MapAll(rows, prep) == Join(head, tail) by {
        assert rows == first + restRows;
        MapAllConcat(first, restRows, prep);
      }
      assert Prepares(rows, prep) <==> head.Ok? && tail.Ok? by {
        assert rows == first + restRows;
        PreparesConcat(first, restRows, prep);
      }
      if head.Ok? {
        var out := AppendChunks(table + head.value, rest, prep);
        assert AppendChunks(table, chunks, prep) == out;
        AppendChunksLoaded(table + head.value, rest, prep);
        if tail.Ok? {
          assert table + head.value + tail.value == table + (head.value + tail.value);
        }
      }
    }
  }

  /** A failed load appended the records of some prefix of the rows, all
      preparing, and the rows after that prefix hold one that does not. */
  ghost predicate AbortsAfterPrefix<R, T, E>(table: seq<T>, chunks: seq<seq<R>>, prep: R -> Result<T, E>) {
    AppendChunks(table, chunks, prep).Aborted? ==>
      exists n :: 0 <= n < |Flatten(chunks)|
        && Prepares(Flatten(chunks)[..n], prep)
        && !Prepares(Flatten(chunks)[n..], prep)
        && AppendChunks(table, chunks, prep).table == table + MapAll(Flatten(chunks)[..n], prep).value
  }

  lemma AbortsOnFirstChunk<R, T, E>(table: seq<T>, chunks: seq<seq<R>>, prep: R -> Result<T, E>)
    requires 0 < |chunks| && MapAll(chunks[0], prep).Err?
    ensures AbortsAfterPrefix(table, chunks, prep)
  {
    var first, restRows := chunks[0], Flatten(chunks[1..]);
    var rows := Flatten(chunks);
    assert rows == first + restRows;
    assert AppendChunks(table, chunks, prep).table == table;
    assert rows[..0] == [] && rows[0..] == rows;
    assert MapAll(rows[..0], prep) == Ok([]);
    assert table + [] == table;
    assert !Prepares(rows, prep) by {
      PreparesConcat(first, restRows, prep);
    }
  }

  /** A prepared first chunk followed by a failing prefix split of the rest
      is a failing prefix split of the whole. */
  lemma PrefixAfterChunk<R, T, E>(first: seq<R>, restRows: seq<R>, n: nat, prep: R -> Result<T, E>)
    requires MapAll(first, prep).Ok?
    requires n < |restRows| && Prepares(restRows[..n], prep) && !Prepares(restRows[n..], prep)
    ensures var rows, m := first + restRows, |first| + n;
      && m < |rows|
      && Prepares(rows[..m], prep)
      && !Prepares(rows[m..], prep)
      && MapAll(rows[..m], prep).Ok?
      && MapAll(rows[..m], prep).value == MapAll(first, prep).value + MapAll(restRows[..n], prep).value
  {
    var rows, m := first + restRows, |first| + n;
    assert rows[..m] == first + restRows[..n] && rows[m..] == restRows[n..] by {
      SplitAfter(first, restRows, n);
    }
    assert Prepares(rows[..m], prep) by {
      PreparesConcat(first, restRows[..n], prep);
    }
    MapAllConcat(first, restRows[..n], prep);
  }

  lemma AppendAssoc<T>(a: seq<T>, b: seq<T>, c: seq<T>)
    ensures a + b + c == a + (b + c)
  {
  }

  lemma AbortsOnLaterChunk<R, T, E>(table: seq<T>, chunks: seq<seq<R>>, prep: R -> Result<T, E>)
    requires 0 < |chunks| && MapAll(chunks[0], prep).Ok?
    requires AbortsAfterPrefix(table + MapAll(chunks[0], prep).value, chunks[1..], prep)
    ensures AbortsAfterPrefix(table, chunks, prep)
  {
    var first, rest := chunks[0], chunks[1..];
    var rows, restRows := Flatten(chunks), Flatten(rest);
    var recs := MapAll(first, prep).value;
    var out := AppendChunks(table + recs, rest, prep);
    assert AppendChunks(table, chunks, prep) == out;
    assert rows == first + restRows;
    if out.Aborted? {
      var n :| 0 <= n < |restRows|
        && Prepares(restRows[..n], prep)
        && !Prepares(restRows[n..], prep)
        && out.table == table + recs + MapAll(restRows[..n], prep).value;
      PrefixAfterChunk(first, restRows, n, prep);
      var m := |first| + n;
      AppendAssoc(table, recs, MapAll(restRows[..n], prep).value);
    }
  }

  /** A failed load keeps the old table as a prefix and appends the records of
      some prefix of the rows, all preparing, while the rows after that prefix
      hold one that does not: no record of the failing chunk is stored. */
  lemma {:induction false} AppendChunksAborted<R, T, E>(
    table: seq<T>, chunks: seq<seq<R>>, prep: R -> Result<T, E>)
    ensures AbortsAfterPrefix(table, chunks, prep)
    decreases |chunks|
  {
    if |chunks| > 0 {
      if MapAll(chunks[0], prep).Err? {
        AbortsOnFirstChunk(table, chunks, prep);
      } else {
        AppendChunksAborted(table + MapAll(chunks[0], prep).value, chunks[1..], prep);
        AbortsOnLaterChunk(table, chunks, prep);
      }
    }
  }

  /** The chunks before index j + 1 are the first chunk, then the chunks of
      the rest before index j. */
  lemma FlattenPrefixCons<T>(chunks: seq<seq<T>>, j: nat)
    requires j < |chunks| - 1
    ensures Flatten(chunks[..j + 1]) == chunks[0] + Flatten(chunks[1..][..j])
  {
    assert chunks[..j + 1][0] == chunks[0] && chunks[..j + 1][1..] == chunks[1..][..j];
  }

  /** A failed load stops at one chunk: every chunk before it prepared and
      was appended whole, the stopping chunk fails, none of its records is
      stored, and the load reports that chunk's error. */
  lemma {:induction false} AppendChunksFailingChunk<R, T, E>(
    table: seq<T>, chunks: seq<seq<R>>, prep: R -> Result<T, E>)
    ensures AppendChunks(table, chunks, prep).Aborted? ==>
      exists k :: 0 <= k < |chunks|
        && MapAll(Flatten(chunks[..k]), prep).Ok?
        && MapAll(chunks[k], prep).Err?
        && AppendChunks(table, chunks, prep) ==
             Aborted(table + MapAll(Flatten(chunks[..k]), prep).value, MapAll(chunks[k], prep).error)
    decreases |chunks|
  {
    if |chunks| > 0 {
      var first, rest := chunks[0], chunks[1..];
      var head := MapAll(first, prep);
      if head.Err? {
        assert chunks[..0] == [] && Flatten(chunks[..0]) == [];
        assert MapAll(Flatten(chunks[..0]), prep) == Ok([]);
        assert table + [] == table;
      } else {
        var out := AppendChunks(table + head.value, rest, prep);
        assert AppendChunks(table, chunks, prep) == out;
        AppendChunksFailingChunk(table + head.value, rest, prep);
        if out.Aborted? {
          var j :| 0 <= j < |rest|
            && MapAll(Flatten(rest[..j]), prep).Ok?
            && MapAll(rest[j], prep).Err?
            && out == Aborted(table + head.value + MapAll(Flatten(rest[..j]), prep).value, MapAll(rest[j], prep).error);
          var before := MapAll(Flatten(rest[..j]), prep).value;
          FlattenPrefixCons(chunks, j);
          MapAllConcat(first, Flatten(rest[..j]), prep);
          assert MapAll(Flatten(chunks[..j + 1]), prep) == Ok(head.value + before);
          AppendAssoc(table, head.value, before);
          assert chunks[j + 1] == rest[j];
        }
      }
    }
  }

  lemma FileChunksCons<T>(files: seq<seq<T>>, size: nat)
    requires 0 < size && 0 < |files|
    ensures FileChunks(files, size) == Chunks(files[0], size) + FileChunks(files[1..], size)
  {
  }

  lemma ChunksCons<T>(rows: seq<T>, size: nat, n: nat)
    requires 0 < size && 0 < |rows| && n == if |rows| < size then |rows| else size
    ensures Chunks(rows, size) == [rows[..n]] + Chunks(rows[n..], size)
  {
    if |rows| <= size {
      assert rows[..n] == rows && rows[n..] == [];
    }
  }

  lemma AppendChunksCons<R, T, E>(table: seq<T>, chunk: seq<R>, more: seq<seq<R>>, prep: R -> Result<T, E>)
    ensures MapAll(chunk, prep).Err? ==>
      AppendChunks(table, [chunk] + more, prep) == Aborted(table, MapAll(chunk, prep).error)
    ensures MapAll(chunk, prep).Ok? ==>
      AppendChunks(table, [chunk] + more, prep) == AppendChunks(table + MapAll(chunk, prep).value, more, prep)
  {
    assert ([chunk] + more)[0] == chunk && ([chunk] + more)[1..] == more;
  }

  /** Loading whole files with a given chunk size. */
  function LoadFiles<R, T(==), E(==)>(table: seq<T>, files: seq<seq<R>>, chunkSize: nat, prep: R -> Result<T, E>): (out: LoadOutcome<T, E>)
    requires 0 < chunkSize
    ensures out.Loaded? <==> Prepares(Flatten(files), prep)
    ensures table <= out.table
    ensures out.Loaded? ==> out.table == table + MapAll(Flatten(files), prep).value
  {
    AppendChunksLoaded(table, FileChunks(files, chunkSize), prep);
    AppendChunks(table, FileChunks(files, chunkSize), prep)
  }

  /** The chunk size does not change whether a load succeeds, nor what a
      successful load stores. */
  lemma ChunkSizeIrrelevant<R, T, E>(
    table: seq<T>, files: seq<seq<R>>, size1: nat, size2: nat, prep: R -> Result<T, E>)
    requires 0 < size1 && 0 < size2
    ensures LoadFiles(table, files, size1, prep).Loaded? <==> LoadFiles(table, files, size2, prep).Loaded?
    ensures LoadFiles(table, files, size1, prep).Loaded? ==>
      LoadFiles(table, files, size1, prep).table == LoadFiles(table, files, size2, prep).table
  {
    AppendChunksLoaded(table, FileChunks(files, size1), prep);
    AppendChunksLoaded(table, FileChunks(files, size2), prep);
  }

  // ---------------------------------------------------------------- the load of crime files

  /** The chunk size the loader reads with. */
  const ChunkSize: nat := 100000

  /** The load over the yearly files, in the order they are listed. */
  function CreateDb(table: seq<Record>, files: seq<seq<RawRow>>): (out: LoadOutcome<Record, PrepError>)
    ensures out.Loaded? <==> AllValid(Flatten(files))
    ensures table <= out.table
  {
    PreparesIsAllValid(Flatten(files));
    LoadFiles(table, files, ChunkSize, PrepareRow)
  }

  lemma PreparesIsAllValid(rows: seq<RawRow>)
    ensures Prepares(rows, PrepareRow) <==> AllValid(rows)
  {
    forall i | 0 <= i < |rows| ensures PrepareRow(rows[i]).Ok? <==> ValidTimeOcc(rows[i].timeOcc) {
    }
  }

  /** The load of the crime files: it succeeds exactly when every row has a
      valid time, and then the table grows by exactly one record per row, each
      row's own, in file order and row order. A failed load appends the
      records of a prefix of the rows, all valid, before an invalid row. */
  lemma CreateDbSpec(table: seq<Record>, files: seq<seq<RawRow>>)
    ensures CreateDb(table, files).Loaded? <==> AllValid(Flatten(files))
    ensures CreateDb(table, files).Loaded? ==>
      CreateDb(table, files).table == table + PrepareChunk(Flatten(files)).value
    ensures CreateDb(table, files).Loaded? ==>
      |CreateDb(table, files).table| == |table| + |Flatten(files)|
    ensures CreateDb(table, files).Aborted? ==>
      exists n :: 0 <= n < |Flatten(files)|
        && AllValid(Flatten(files)[..n])
        && !AllValid(Flatten(files)[n..])
        && CreateDb(table, files).table == table + PrepareChunk(Flatten(files)[..n]).value
    ensures CreateDb(table, files).Aborted? ==>
      exists k :: 0 <= k < |FileChunks(files, ChunkSize)|
        && AllValid(Flatten(FileChunks(files, ChunkSize)[..k]))
        && !AllValid(FileChunks(files, ChunkSize)[k])
        && CreateDb(table, files) == Aborted(
             table + PrepareChunk(Flatten(FileChunks(files, ChunkSize)[..k])).value,
             PrepareChunk(FileChunks(files, ChunkSize)[k]).error)
  {
    var rows := Flatten(files);
    CreateDbFailingChunk(table, files);
    AppendChunksLoaded(table, FileChunks(files, ChunkSize), PrepareRow);
    AppendChunksAborted(table, FileChunks(files, ChunkSize), PrepareRow);
    PreparesIsAllValid(rows);
    assert PrepareChunk(rows) == MapAll(rows, PrepareRow);
    if CreateDb(table, files).Aborted? {
      var n :| 0 <= n < |rows|
        && Prepares(rows[..n], PrepareRow)
        && !Prepares(rows[n..], PrepareRow)
        && CreateDb(table, files).table == table + MapAll(rows[..n], PrepareRow).value;
      PreparesIsAllValid(rows[..n]);
      PreparesIsAllValid(rows[n..]);
      assert PrepareChunk(rows[..n]) == MapAll(rows[..n], PrepareRow);
    }
  }

  /** Whether it completes or stops, a load of the crime files appends the
      records of a prefix of the rows, all valid: all of them when it completes. */
  lemma CreateDbAppendsPrefix(table: seq<Record>, files: seq<seq<RawRow>>) returns (n: nat)
    ensures n <= |Flatten(files)| && AllValid(Flatten(files)[..n])
    ensures CreateDb(table, files).Loaded? ==> n == |Flatten(files)|
    ensures CreateDb(table, files).table == table + PrepareChunk(Flatten(files)[..n]).value
  {
    var rows := Flatten(files);
    CreateDbSpec(table, files);
    n := |rows|;
    if CreateDb(table, files).Aborted? {
      n :| 0 <= n < |rows|
        && AllValid(rows[..n])
        && CreateDb(table, files).table == table + PrepareChunk(rows[..n]).value;
    }
    assert rows[..|rows|] == rows;
  }

  /** The chunk-level view of a failed load of the crime files. */
  lemma CreateDbFailingChunk(table: seq<Record>, files: seq<seq<RawRow>>)
    ensures CreateDb(table, files).Aborted? ==>
      exists k :: 0 <= k < |FileChunks(files, ChunkSize)|
        && AllValid(Flatten(FileChunks(files, ChunkSize)[..k]))
        && !AllValid(FileChunks(files, ChunkSize)[k])
        && CreateDb(table, files) == Aborted(
             table + PrepareChunk(Flatten(FileChunks(files, ChunkSize)[..k])).value,
             PrepareChunk(FileChunks(files, ChunkSize)[k]).error)
  {
    var chunks := FileChunks(files, ChunkSize);
    AppendChunksFailingChunk(table, chunks, PrepareRow);
    if CreateDb(table, files).Aborted? {
      var k :| 0 <= k < |chunks|
        && MapAll(Flatten(chunks[..k]), PrepareRow).Ok?
        && MapAll(chunks[k], PrepareRow).Err?
        && CreateDb(table, files) ==
             Aborted(table + MapAll(Flatten(chunks[..k]), PrepareRow).value, MapAll(chunks[k], PrepareRow).error);
      assert PrepareChunk(Flatten(chunks[..k])) == MapAll(Flatten(chunks[..k]), PrepareRow);
      assert PrepareChunk(chunks[k]) == MapAll(chunks[k], PrepareRow);
    }
  }

  /** Appending the same chunks twice appends every record twice. */
  lemma AppendTwice<R, T, E>(table: seq<T>, chunks: seq<seq<R>>, prep: R -> Result<T, E>)
    requires AppendChunks(table, chunks, prep).Loaded?
    ensures AppendChunks(AppendChunks(table, chunks, prep).table, chunks, prep).Loaded?
    ensures MapAll(Flatten(chunks), prep).Ok?
    ensures AppendChunks(AppendChunks(table, chunks, prep).table, chunks, prep).table ==
      table + MapAll(Flatten(chunks), prep).value + MapAll(Flatten(chunks), prep).value
  {
    var once := AppendChunks(table, chunks, prep).table;
    AppendChunksLoaded(table, chunks, prep);
    AppendChunksLoaded(once, chunks, prep);
  }

  /** Loading the same files twice stores every record twice: nothing is deduplicated. */
  lemma ReloadDuplicates(table: seq<Record>, files: seq<seq<RawRow>>)
    requires CreateDb(table, files).Loaded?
    ensures CreateDb(CreateDb(table, files).table, files).Loaded?
    ensures AllValid(Flatten(files))
    ensures CreateDb(CreateDb(table, files).table, files).table ==
      table + PrepareChunk(Flatten(files)).value + PrepareChunk(Flatten(files)).value
  {
    var chunks := FileChunks(files, ChunkSize);
    AppendTwice(table, chunks, PrepareRow);
    assert Flatten(chunks) == Flatten(files);
    PreparesIsAllValid(Flatten(files));
    assert PrepareChunk(Flatten(files)) == MapAll(Flatten(files), PrepareRow);
  }

  /** Whatever the chunk size, a load succeeds exactly when every row has a
      valid time, and then appends every row's record in order. */
  lemma LoadFilesSpec(table: seq<Record>, files: seq<seq<RawRow>>, chunkSize: nat)
    requires 0 < chunkSize
    ensures LoadFiles(table, files, chunkSize, PrepareRow).Loaded? <==> AllValid(Flatten(files))
    ensures LoadFiles(table, files, chunkSize, PrepareRow).Loaded? ==>
      LoadFiles(table, files, chunkSize, PrepareRow).table == table + PrepareChunk(Flatten(files)).value
  {
    ChunkSizeIrrelevant(table, files, chunkSize, ChunkSize, PrepareRow);
    CreateDbSpec(table, files);
  }

  /** The load of one file: chunks of at most `chunkSize` rows, each prepared
      and appended, stopping at the first chunk that fails to prepare. Its
      outcome is where the whole load stands after this file. */
  method LoadFile<R, T(==), E(==)>(
    current: seq<T>, rows: seq<R>, later: seq<seq<R>>, chunkSize: nat, prep: R -> Result<T, E>)
    returns (out: LoadOutcome<T, E>)
    requires 0 < chunkSize
    ensures out.Loaded? ==>
      AppendChunks(current, Chunks(rows, chunkSize) + later, prep) == AppendChunks(out.table, later, prep)
    ensures out.Aborted? ==> AppendChunks(current, Chunks(rows, chunkSize) + later, prep) == out
  {
    var table := current;
    var rest := rows;
    while 0 < |rest|
      invariant AppendChunks(current, Chunks(rows, chunkSize) + later, prep) ==
        AppendChunks(table, Chunks(rest, chunkSize) + later, prep)
      decreases |rest|
    {
      var n := if |rest| < chunkSize then |rest| else chunkSize;
      var chunk := rest[..n];
      var more := Chunks(rest[n..], chunkSize) + later;
      assert Chunks(rest, chunkSize) + later == [chunk] + more by {
        ChunksCons(rest, chunkSize, n);
      }
      AppendChunksCons(table, chunk, more, prep);
      match MapAll(chunk, prep)
      case Err(e) =>
        return Aborted(table, e);
      case Ok(recs) =>
        table := table + recs;
      rest := rest[n..];
    }
    assert Chunks(rest, chunkSize) + later == later;
    out := Loaded(table);
  }

  /** The load as a loop over files, in the order they are listed. */
  method BulkLoad<R, T(==), E(==)>(table: seq<T>, files: seq<seq<R>>, chunkSize: nat, prep: R -> Result<T, E>)
    returns (out: LoadOutcome<T, E>)
    requires 0 < chunkSize
    ensures out == LoadFiles(table, files, chunkSize, prep)
  {
    var current := table;
    var f := 0;
    while f < |files|
      invariant 0 <= f <= |files|
      invariant LoadFiles(table, files, chunkSize, prep) ==
        AppendChunks(current, FileChunks(files[f..], chunkSize), prep)
    {
      var later := FileChunks(files[f + 1..], chunkSize);
      assert FileChunks(files[f..], chunkSize) == Chunks(files[f], chunkSize) + later by {
        assert files[f..][0] == files[f] && files[f..][1..] == files[f + 1..];
        FileChunksCons(files[f..], chunkSize);
      }
      var step := LoadFile(current, files[f], later, chunkSize, prep);
      if step.Aborted? {
        return step;
      }
      current := step.table;
      f := f + 1;
    }
    assert files[f..] == [];
    out := Loaded(current);
  }

  /** The crime load as the loop runs it: every file read in chunks of
      `ChunkSize` rows, each chunk prepared and appended. It succeeds exactly
      when every row has a valid time, and then appends every row's record. */
  method RunCreateDb(table: seq<Record>, files: seq<seq<RawRow>>) returns (out: LoadOutcome<Record, PrepError>)
    ensures out == CreateDb(table, files)
    ensures out.Loaded? <==> AllValid(Flatten(files))
    ensures out.Loaded? ==> out.table == table + PrepareChunk(Flatten(files)).value
  {
    out := BulkLoad(table, files, ChunkSize, PrepareRow);
    CreateDbSpec(table, files);
  }
}

=== FILE: prepare.dfy ===
/** Row preparation: one raw incident row becomes one 14-column record. The
    row is projected onto ten recognised columns, the victim-sex code is
    normalised through a lookup table, the year is sliced out of the date,
    the HHMM time is zero-padded and parsed, and the three labels are added. */
module Prepare {
  import opened Results
  import opened Text
  import opened Classify

  datatype Sex = Male | Female | Unknown

  /** One row of a raw incident file. `crimeCode`, `victimAge`, `victimSex`,
      `lat` and `lon` are None for an empty cell. Coordinates are in ten-thousandths of a degree. Columns
      the preparation does not recognise are kept in `otherColumns`. */
  datatype RawRow = RawRow(
    dateOcc: string,
    timeOcc: int,
    areaName: string,
    crimeCode: Option<int>,
    crimeDesc: string,
    victimAge: Option<int>,
    victimSex: Option<string>,
    location: string,
    lat: Option<int>,
    lon: Option<int>,
    otherColumns: map<string, string>)

  /** One stored incident, its fields in the column order of the `crimes` table.
      `victimSex` is None when the raw code is outside the lookup table. */
  datatype Record = Record(
    dateOcc: string,
    timeOcc: TimeOfDay,
    period: Period,
    areaName: string,
    crimeCode: Option<int>,
    risk: RiskTier,
    crimeDesc: string,
    victimAge: Option<int>,
    ageGroup: AgeGroup,
    victimSex: Option<Sex>,
    location: string,
    lat: Option<int>,
    lon: Option<int>,
    year: string)

  /** The only failure of preparation: a TIME OCC value that is not a valid HHMM time. */
  datatype PrepError = BadTimeOcc(value: int)

  // ---------------------------------------------------------------- columns

  const RawColumns: seq<string> :=
    ["DATE OCC", "TIME OCC", "AREA NAME", "Crm Cd", "Crm Cd Desc",
     "Vict Age", "Vict Sex", "LOCATION", "LAT", "LON"]

  /** A dataframe's `insert(i, name, ...)` on its column list. */
  function InsertAt(cols: seq<string>, i: nat, name: string): (r: seq<string>)
    requires i <= |cols|
    ensures |r| == |cols| + 1 && r[i] == name
    ensures r[..i] == cols[..i] && r[i + 1..] == cols[i..]
  {
    cols[..i] + [name] + cols[i..]
  }

  /** The four inserts, in the order the preparation performs them, put the
      derived columns where the `Record` fields have them. */
  function PreparedColumns(): (cols: seq<string>)
    ensures cols ==
      ["DATE OCC", "TIME OCC", "Crime Period", "AREA NAME", "Crm Cd", "Risk",
       "Crm Cd Desc", "Vict Age", "Vict Age Group", "Vict Sex", "LOCATION",
       "LAT", "LON", "year"]
  {
    var withYear := InsertAt(RawColumns, 10, "year");
    assert withYear ==
      ["DATE OCC", "TIME OCC", "AREA NAME", "Crm Cd", "Crm Cd Desc",
       "Vict Age", "Vict Sex", "LOCATION", "LAT", "LON", "year"];
    var withPeriod := InsertAt(withYear, 2, "Crime Period");
    assert withPeriod ==
      ["DATE OCC", "TIME OCC", "Crime Period", "AREA NAME", "Crm Cd", "Crm Cd Desc",
       "Vict Age", "Vict Sex", "LOCATION", "LAT", "LON", "year"];
    var withAgeGroup := InsertAt(withPeriod, 7, "Vict Age Group");
    assert withAgeGroup ==
      ["DATE OCC", "TIME OCC", "Crime Period", "AREA NAME", "Crm Cd", "Crm Cd Desc",
       "Vict Age", "Vict Age Group", "Vict Sex", "LOCATION", "LAT", "LON", "year"];
    InsertAt(withAgeGroup, 5, "Risk")
  }

  // ---------------------------------------------------------------- victim sex

  /** The victim-sex lookup table; the key None stands for an empty cell. */
  const SexTable: map<Option<string>, Sex> :=
    map[Some("M") := Male, Some("F") := Female, Some("X") := Unknown,
        Some("H") := Unknown, Some("-") := Unknown, None := Unknown]

  /** Mapping a column through a table: M and F are kept, X, H, '-' and an
      empty cell become Unknown, and a code the table lacks has no value. */
  function SexOf(code: Option<string>): (r: Option<Sex>)
    ensures r == Some(Male) <==> code == Some("M")
    ensures r == Some(Female) <==> code == Some("F")
    ensures r == Some(Unknown) <==>
      code.None? || code.value == "X" || code.value == "H" || code.value == "-"
    ensures r.None? <==>
      code.Some? && code.value != "M" && code.value != "F" &&
      code.value != "X" && code.value != "H" && code.value != "-"
  {
    if code in SexTable then
      assert code in {Some("M"), Some("F"), Some("X"), Some("H"), Some("-"), None};
      assert code.Some? ==> code.value in {"M", "F", "X", "H", "-"};
      Some(SexTable[code])
    else
      assert code != None && code != Some("M") && code != Some("F");
      assert code != Some("X") && code != Some("H") && code != Some("-");
      None
  }

  // ---------------------------------------------------------------- year

  /** The year column: characters 6 to 9 of DATE OCC. */
  function YearOfDate(date: string): (y: string)
    ensures |y| <= 4
    ensures 10 <= |date| ==> |y| == 4 && date == date[..6] + y + date[10..]
    ensures 6 <= |date| < 10 ==> y == date[6..]
    ensures |date| <= 6 ==> y == []
  {
    Slice(date, 6, 10)
  }

  /** A date of the shape MM/DD/YYYY..., with digits where the year stands. */
  predicate WellFormedDate(date: string) {
    10 <= |date| && AllDigits(date[6..10])
  }

  lemma YearOfDateExample()
    ensures YearOfDate("03/15/2022") == "2022"
    ensures YearOfDate("03/15/2022 12:00:00 AM") == "2022"
    ensures YearOfDate("3/5/2022") == "22"
    ensures YearOfDate("3/5/22") == ""
  {
  }

  // ---------------------------------------------------------------- time of occurrence

  /** An HHMM integer that names a time of day. */
  predicate ValidTimeOcc(x: int) {
    0 <= x && x / 100 < 24 && x % 100 < 60
  }

  /** The HHMM integer of a time, the inverse reading of TIME OCC. */
  function ClockValue(t: TimeOfDay): nat {
    t.hour * 100 + t.minute
  }

  /** `str(x).zfill(4)`. */
  function TimeOccText(x: int): (s: string)
    ensures 4 <= |s|
  {
    ZFill(IntToDecimal(x), 4)
  }

  /** Parsing with the format `%H%M`. The hour matches 2[0-3], [0-1]\d or \d and
      the minute [0-5]\d or \d, and the whole text must be consumed. Only texts
      of at least four characters reach it (the value is zero-padded first),
      and on those only the two-digit alternatives can consume it all. */
  function ParseHHMM(s: string): (r: Option<TimeOfDay>)
    requires 4 <= |s|
    ensures r.Some? <==> |s| == 4 && AllDigits(s) && Value(s) / 100 < 24 && Value(s) % 100 < 60
    ensures r.Some? ==> r.value.second == 0 && ClockValue(r.value) == Value(s)
  {
    if |s| == 4 && AllDigits(s) then
      SplitHHMM(s);
      if Value(s[..2]) < 24 && Value(s[2..]) < 60
      then Some(TimeOfDay(Value(s[..2]), Value(s[2..]), 0))
      else None
    else None
  }

  /** The padded text of a value in [0, 9999] is four digits spelling the value. */
  lemma TimeOccTextDigits(x: int)
    requires 0 <= x < 10000
    ensures |TimeOccText(x)| == 4 && AllDigits(TimeOccText(x)) && Value(TimeOccText(x)) == x
  {
    var s := IntToDecimal(x);
    DecimalLength(x, 4);
    ZFillDigits(s, 4);
  }

  /** A negative value keeps its sign in front, and a value of five or more
      digits is not padded: neither is four digits. */
  lemma TimeOccTextRejects(x: int)
    requires x < 0 || 10000 <= x
    ensures !(|TimeOccText(x)| == 4 && AllDigits(TimeOccText(x)))
  {
    var s := IntToDecimal(x);
    if x < 0 {
      assert TimeOccText(x)[0] == '-';
    } else {
      DecimalLength(x, 4);
    }
  }

  lemma SplitHHMM(s: string)
    requires |s| == 4 && AllDigits(s)
    ensures Value(s[..2]) == Value(s) / 100 && Value(s[2..]) == Value(s) % 100
  {
    assert s == s[..2] + s[2..];
    ValueConcat(s[..2], s[2..]);
    ValueBound(s[2..]);
  }

  /** TIME OCC parses exactly when it is a valid HHMM value, and then to
      that hour and minute with zero seconds; otherwise the error names it. */
  function ParseTimeOcc(x: int): (r: Result<TimeOfDay, PrepError>)
    ensures r.Ok? <==> ValidTimeOcc(x)
    ensures r.Ok? ==> r.value.second == 0 && ClockValue(r.value) == x
    ensures r.Err? ==> r.error == BadTimeOcc(x)
  {
    var text := TimeOccText(x);
    assert (0 <= x < 10000 <==> |text| == 4 && AllDigits(text)) && (0 <= x < 10000 ==> Value(text) == x) by {
      if 0 <= x < 10000 {
        TimeOccTextDigits(x);
      } else {
        TimeOccTextRejects(x);
      }
    }
    match ParseHHMM(text)
    case Some(t) => Ok(t)
    case None => Err(BadTimeOcc(x))
  }

  /** Hour and minute are recovered from the HHMM value. */
  lemma ClockValueInjective(a: TimeOfDay, b: TimeOfDay)
    requires ClockValue(a) == ClockValue(b) && a.second == b.second
    ensures a == b
  {
    assert ClockValue(a) / 100 == a.hour && ClockValue(b) / 100 == b.hour;
  }

  /** Reading TIME OCC back from a stored time gives the time again. */
  lemma TimeOccRoundTrip(t: TimeOfDay)
    requires t.second == 0
    ensures ParseTimeOcc(ClockValue(t)) == Ok(t)
  {
    var x := ClockValue(t);
    assert x / 100 == t.hour && x % 100 == t.minute;
    var r := ParseTimeOcc(x);
    assert r.Ok? && ClockValue(r.value) == x;
    ClockValueInjective(r.value, t);
  }

  lemma TimeOccExample()
    ensures TimeOccText(830) == "0830"
    ensures ParseTimeOcc(830) == Ok(TimeOfDay(8, 30, 0))
    ensures ParseTimeOcc(2400) == Err(BadTimeOcc(2400))
    ensures ParseTimeOcc(1260) == Err(BadTimeOcc(1260))
  {
    assert NatToDecimal(830) == "830";
    TimeOccRoundTrip(TimeOfDay(8, 30, 0));
  }

  // ---------------------------------------------------------------- one row

  /** The age-group column for a possibly empty age cell: every comparison with
      a missing value is false, so the rule falls through to its last branch. */
  function AgeGroupOf(age: Option<int>): (g: AgeGroup)
    ensures g == Senior <==> age.None? || age.value < 0 || 60 <= age.value
    ensures age.Some? ==> g == AgeGroupOfBucket(Bucket(AgeBounds, age.value))
  {
    match age
    case Some(a) => VictimAgeGroup(a)
    case None => Senior
  }

  /** The risk column for a possibly empty Crm Cd cell: both comparisons with a
      missing value are false, so the rule falls through to its last branch. */
  function RiskOf(code: Option<int>): (t: RiskTier)
    ensures t == Light <==> code.None? || 500 <= code.value
    ensures code.Some? ==> t.Severity() == CountAbove(RiskThresholds, code.value)
  {
    match code
    case Some(x) => Risk(x)
    case None => Light
  }

  /** The labels a record carries are the rules applied to its own fields. */
  predicate Derived(rec: Record) {
    && rec.period == CrimePeriod(rec.timeOcc)
    && rec.risk == RiskOf(rec.crimeCode)
    && rec.ageGroup == AgeGroupOf(rec.victimAge)
    && rec.year == YearOfDate(rec.dateOcc)
    && rec.timeOcc.second == 0
  }

  /** The record keeps every raw field: the sex code through the table, the
      time as the value it was read from, the rest unchanged. */
  predicate Preserves(rec: Record, row: RawRow) {
    && rec.dateOcc == row.dateOcc
    && ClockValue(rec.timeOcc) == row.timeOcc
    && rec.areaName == row.areaName
    && rec.crimeCode == row.crimeCode
    && rec.crimeDesc == row.crimeDesc
    && rec.victimAge == row.victimAge
    && rec.victimSex == SexOf(row.victimSex)
    && rec.location == row.location
    && rec.lat == row.lat
    && rec.lon == row.lon
  }

  /** One row: fails exactly on an invalid TIME OCC; otherwise the record keeps
      the raw fields and carries labels consistent with them. */
  function PrepareRow(row: RawRow): (r: Result<Record, PrepError>)
    ensures r.Ok? <==> ValidTimeOcc(row.timeOcc)
    ensures r.Err? ==> r.error == BadTimeOcc(row.timeOcc)
    ensures r.Ok? ==> Derived(r.value) && Preserves(r.value, row)
  {
    match ParseTimeOcc(row.timeOcc)
    case Err(e) => Err(e)
    case Ok(time) =>
      Ok(Record(
        row.dateOcc,
        time,
        CrimePeriod(time),
        row.areaName,
        row.crimeCode,
        RiskOf(row.crimeCode),
        row.crimeDesc,
        row.victimAge,
        AgeGroupOf(row.victimAge),
        SexOf(row.victimSex),
        row.location,
        row.lat,
        row.lon,
        YearOfDate(row.dateOcc)))
  }

  /** A prepared record is determined by its raw row: two rows that agree on
      the raw fields prepare alike, so nothing is lost that a record needs. */
  lemma PrepareRowInjective(row1: RawRow, row2: RawRow)
    requires PrepareRow(row1).Ok? && PrepareRow(row2).Ok?
    requires PrepareRow(row1) == PrepareRow(row2)
    ensures row1.(victimSex := None, otherColumns := map[]) == row2.(victimSex := None, otherColumns := map[])
  {
  }

  /** Columns outside the recognised ten are dropped. */
  lemma PrepareIgnoresOtherColumns(row: RawRow, other: map<string, string>)
    ensures PrepareRow(row.(otherColumns := other)) == PrepareRow(row)
  {
  }

  /** A well-formed date stores a four-digit year. */
  lemma WellFormedDateYear(row: RawRow)
    requires WellFormedDate(row.dateOcc) && PrepareRow(row).Ok?
    ensures |PrepareRow(row).value.year| == 4 && AllDigits(PrepareRow(row).value.year)
  {
    assert PrepareRow(row).value.year == row.dateOcc[6..10];
  }

  lemma SampleRowPrepares(row: RawRow)
    requires row.dateOcc == "03/15/2022" && row.timeOcc == 830
    requires row.victimAge == Some(25) && row.crimeCode == Some(440) && row.victimSex == Some("F")
    ensures PrepareRow(row).Ok?
    ensures PrepareRow(row).value.year == "2022"
    ensures PrepareRow(row).value.timeOcc == TimeOfDay(8, 30, 0)
    ensures PrepareRow(row).value.period == Morning
    ensures PrepareRow(row).value.ageGroup == YoungAdult
    ensures PrepareRow(row).value.risk == Medium
    ensures PrepareRow(row).value.victimSex == Some(Female)
  {
    YearOfDateExample();
  }

  // ---------------------------------------------------------------- one chunk

  predicate AllValid(rows: seq<RawRow>) {
    forall i :: 0 <= i < |rows| ==> ValidTimeOcc(rows[i].timeOcc)
  }

  /** A whole chunk: either every row prepares, and the records come row for
      row in order, or the chunk fails with the error of its first bad row and
      yields no records at all. */
  function PrepareChunk(rows: seq<RawRow>): (r: Result<seq<Record>, PrepError>)
    ensures r.Ok? <==> AllValid(rows)
    ensures r.Ok? ==> |r.value| == |rows|
    ensures r.Ok? ==> forall i :: 0 <= i < |rows| ==> PrepareRow(rows[i]) == Ok(r.value[i])
    ensures r.Err? ==>
      exists i :: 0 <= i < |rows| && AllValid(rows[..i]) && !ValidTimeOcc(rows[i].timeOcc)
        && r.error == BadTimeOcc(rows[i].timeOcc)
  {
    var r := MapAll(rows, PrepareRow);
    assert r.Ok? <==> AllValid(rows) by {
      forall i | 0 <= i < |rows| ensures PrepareRow(rows[i]).Ok? <==> ValidTimeOcc(rows[i].timeOcc) {
      }
    }
    if r.Err? then
      MapAllError(rows, PrepareRow);
      var i :| 0 <= i < |rows| && PrepareRow(rows[i]) == Err(r.error)
               && forall j :: 0 <= j < i ==> PrepareRow(rows[j]).Ok?;
      assert AllValid(rows[..i]) by {
        forall j | 0 <= j < i ensures ValidTimeOcc(rows[..i][j].timeOcc) {
          assert rows[..i][j] == rows[j];
          assert PrepareRow(rows[j]).Ok?;
        }
      }
      r
    else
      r
  }

  /** Preparation is row-wise, so it commutes with splitting the rows into chunks. */
  lemma PrepareChunkConcat(a: seq<RawRow>, b: seq<RawRow>)
    ensures PrepareChunk(a + b) == Join(PrepareChunk(a), PrepareChunk(b))
  {
    MapAllConcat(a, b, PrepareRow);
  }
}

=== FILE: queries.dfy ===
/** The two read queries over the `crimes` table: all incidents of a range
    of years, and the recent incidents around a geocoded address. The table
    is the sequence of stored records in the order they were appended; a
    query keeps the records its WHERE clause accepts, in that order. */
module Queries {
  import opened Results
  import opened Text
  import opened Prepare
  import opened Loader

  // ---------------------------------------------------------------- selection

  /** The records of `s` that `keep` accepts, in their order in `s`. */
  function Filter<T(!new)>(s: seq<T>, keep: T -> bool): (r: seq<T>)
    ensures |r| <= |s|
    ensures forall x {:trigger x in r} :: x in r <==> x in s && keep(x)
    ensures forall x {:trigger multiset(r)[x]} :: multiset(r)[x] == if keep(x) then multiset(s)[x] else 0
    decreases |s|
  {
    if |s| == 0 then []
    else
      var rest := Filter(s[1..], keep);
      assert s == [s[0]] + s[1..];
      if keep(s[0]) then [s[0]] + rest else rest
  }

  /** A test that rejects every record selects nothing. */
  lemma {:induction false} FilterNone<T(!new)>(s: seq<T>, keep: T -> bool)
    requires forall i :: 0 <= i < |s| ==> !keep(s[i])
    ensures Filter(s, keep) == []
    decreases |s|
  {
    if |s| > 0 {
      assert !keep(s[0]);
      FilterNone(s[1..], keep);
    }
  }

  /** Selecting from a table that grew by appending selects from the old
      part, then from the new part. */
  lemma {:induction false} FilterConcat<T(!new)>(a: seq<T>, b: seq<T>, keep: T -> bool)
    ensures Filter(a + b, keep) == Filter(a, keep) + Filter(b, keep)
    decreases |a|
  {
    if |a| == 0 {
      assert a + b == b;
    } else {
      assert (a + b)[0] == a[0] && (a + b)[1..] == a[1..] + b;
      FilterConcat(a[1..], b, keep);
    }
  }

  /** Two tests that agree on every record of `s` select the same records. */
  lemma {:induction false} FilterAgree<T(!new)>(s: seq<T>, p: T -> bool, q: T -> bool)
    requires forall i :: 0 <= i < |s| ==> p(s[i]) == q(s[i])
    ensures Filter(s, p) == Filter(s, q)
    decreases |s|
  {
    if |s| > 0 {
      assert p(s[0]) == q(s[0]);
      FilterAgree(s[1..], p, q);
    }
  }

  /** Selecting twice is selecting once with both tests. */
  lemma {:induction false} FilterFilter<T(!new)>(s: seq<T>, p: T -> bool, q: T -> bool, both: T -> bool)
    requires forall i :: 0 <= i < |s| ==> both(s[i]) == (p(s[i]) && q(s[i]))
    ensures Filter(Filter(s, p), q) == Filter(s, both)
    decreases |s|
  {
    if |s| > 0 {
      assert both(s[0]) == (p(s[0]) && q(s[0]));
      FilterFilter(s[1..], p, q, both);
      var rest := Filter(s[1..], p);
      if p(s[0]) {
        assert ([s[0]] + rest)[0] == s[0] && ([s[0]] + rest)[1..] == rest;
      }
    }
  }

  // ---------------------------------------------------------------- years

  /** The stored `year` is text, so `year <= e AND year >= b` compares it
      with the decimal text of each bound, character by character. */
  predicate YearTextBetween(year: string, b: int, e: int) {
    LexLe(year, IntToDecimal(e)) && LexLe(IntToDecimal(b), year)
  }

  /** The year query as the table answers it: a text comparison of the year
      column against the bounds. */
  function QueryYearsAsWritten(store: seq<Record>, b: int, e: int): (r: seq<Record>)
    ensures forall rec {:trigger rec in r} :: rec in r <==> rec in store && YearTextBetween(rec.year, b, e)
    ensures forall rec {:trigger multiset(r)[rec]} ::
      multiset(r)[rec] == if YearTextBetween(rec.year, b, e) then multiset(store)[rec] else 0
  {
    Filter(store, (rec: Record) => YearTextBetween(rec.year, b, e))
  }

  /** A stored year that reads as a four-digit number. */
  predicate NumericYear(year: string) {
    |year| == 4 && AllDigits(year)
  }

  /** The year as a number, for a record whose year is numeric, within `b..e` inclusive. */
  predicate InYears(rec: Record, b: int, e: int) {
    NumericYear(rec.year) && b <= Value(rec.year) <= e
  }

  /** The year query as intended: records whose year lies numerically
      between the bounds, both included, each as often as it is stored. */
  function QueryYears(store: seq<Record>, b: int, e: int): (r: seq<Record>)
    ensures forall rec {:trigger rec in r} :: rec in r <==> rec in store && InYears(rec, b, e)
    ensures forall rec {:trigger multiset(r)[rec]} ::
      multiset(r)[rec] == if InYears(rec, b, e) then multiset(store)[rec] else 0
    ensures e < b ==> r == []
  {
    var keep := (rec: Record) => InYears(rec, b, e);
    if e < b then
      FilterNone(store, keep);
      Filter(store, keep)
    else Filter(store, keep)
  }

  /** Every stored year is four digits, as the year of a well-formed date is. */
  predicate WellFormedStore(store: seq<Record>) {
    forall i :: 0 <= i < |store| ==> NumericYear(store[i].year)
  }

  /** A four-digit bound renders as four digits. */
  lemma FourDigitBound(n: int)
    requires 1000 <= n <= 9999
    ensures NumericYear(IntToDecimal(n)) && Value(IntToDecimal(n)) == n
  {
    DecimalLength(n, 4);
    DecimalLength(n, 3);
    assert Pow10(3) == 1000 && Pow10(4) == 10000;
  }

  /** For a four-digit year and four-digit bounds the text comparison is the
      numeric one. */
  lemma YearTextIsNumeric(year: string, b: int, e: int)
    requires NumericYear(year) && 1000 <= b <= 9999 && 1000 <= e <= 9999
    ensures YearTextBetween(year, b, e) <==> b <= Value(year) <= e
  {
    FourDigitBound(b);
    FourDigitBound(e);
    LexLeDigits(year, IntToDecimal(e));
    LexLeDigits(IntToDecimal(b), year);
  }

  /** With four-digit bounds over a table of four-digit years, the year query
      as written returns exactly what the numeric query returns, in the same
      order. */
  lemma QueryYearsAgree(store: seq<Record>, b: int, e: int)
    requires WellFormedStore(store)
    requires 1000 <= b <= 9999 && 1000 <= e <= 9999
    ensures QueryYearsAsWritten(store, b, e) == QueryYears(store, b, e)
  {
    var p := (rec: Record) => YearTextBetween(rec.year, b, e);
    var q := (rec: Record) => InYears(rec, b, e);
    forall i | 0 <= i < |store| ensures p(store[i]) == q(store[i]) {
      YearTextIsNumeric(store[i].year, b, e);
    }
    FilterAgree(store, p, q);
  }

  /** A three-digit lower bound is compared as text: "2010" sorts before
      "999", so a query from year 999 to 2022 misses the 2010 incidents. */
  lemma QueryYearsShortBound(rec: Record)
    requires rec.year == "2010"
    ensures QueryYearsAsWritten([rec], 999, 2022) == []
    ensures QueryYears([rec], 999, 2022) == [rec]
  {
    assert IntToDecimal(999) == "999" by {
      assert NatToDecimal(999) == NatToDecimal(99) + [DigitChar(9)];
      assert NatToDecimal(99) == NatToDecimal(9) + [DigitChar(9)];
    }
    assert !LexLe("999", "2010");
    assert Value("2010") == 2010 by {
      assert "2010"[..3] == "201" && "201"[..2] == "20" && "20"[..1] == "2" && "2"[..0] == "";
    }
    assert InYears(rec, 999, 2022);
  }

  /** A table grown by appending answers every year query with its old answer
      followed by the answer over the appended records. */
  lemma QueryYearsAfterAppend(before: seq<Record>, added: seq<Record>, b: int, e: int)
    ensures QueryYears(before + added, b, e) == QueryYears(before, b, e) + QueryYears(added, b, e)
  {
    FilterConcat(before, added, rec => InYears(rec, b, e));
  }

  // ---------------------------------------------------------------- address

  /** A geocoded position, in ten-thousandths of a degree. */
  datatype Coordinates = Coordinates(lat: int, lon: int)

  /** The geocoder found nothing for the address. */
  datatype QueryError = AddressNotFound

  /** One hundredth of a degree. */
  const Radius: int := 100

  /** The years the address query looks at. */
  const RecentFirst: int := 2021
  const RecentLast: int := 2022

  /** Within one hundredth of a degree of `c` in latitude and in longitude,
      the edges included. A missing coordinate is NULL in the table, and every
      comparison with NULL fails, so such a record is never near. */
  predicate NearBy(rec: Record, c: Coordinates) {
    && rec.lat.Some? && c.lat - Radius <= rec.lat.value <= c.lat + Radius
    && rec.lon.Some? && c.lon - Radius <= rec.lon.value <= c.lon + Radius
  }

  /** The address query, given where the geocoder put the address: the
      incidents of 2021 and 2022, by the text comparison on the year column,
      inside the box around that position. An address the geocoder cannot
      place is an error. */
  function QueryAddress(store: seq<Record>, located: Option<Coordinates>): (r: Result<seq<Record>, QueryError>)
    ensures r.Err? <==> located.None?
    ensures r.Err? ==> r.error == AddressNotFound
    ensures r.Ok? ==> forall rec {:trigger rec in r.value} ::
      rec in r.value <==> rec in store && YearTextBetween(rec.year, RecentFirst, RecentLast) && NearBy(rec, located.value)
    ensures r.Ok? ==> forall rec {:trigger multiset(r.value)[rec]} ::
      multiset(r.value)[rec] ==
        if YearTextBetween(rec.year, RecentFirst, RecentLast) && NearBy(rec, located.value)
        then multiset(store)[rec] else 0
  {
    match located
    case None => Err(AddressNotFound)
    case Some(c) =>
      Ok(Filter(store, (rec: Record) => YearTextBetween(rec.year, RecentFirst, RecentLast) && NearBy(rec, c)))
  }

  /** On a table of four-digit years, the address query is the year query
      for 2021 to 2022 narrowed to the box, in table order. */
  lemma QueryAddressSpec(store: seq<Record>, c: Coordinates)
    requires WellFormedStore(store)
    ensures QueryAddress(store, Some(c)) ==
      Ok(Filter(QueryYears(store, RecentFirst, RecentLast), rec => NearBy(rec, c)))
  {
    var inYears := (rec: Record) => InYears(rec, RecentFirst, RecentLast);
    var near := (rec: Record) => NearBy(rec, c);
    var both := (rec: Record) => inYears(rec) && near(rec);
    var asWritten := (rec: Record) => YearTextBetween(rec.year, RecentFirst, RecentLast) && NearBy(rec, c);
    forall i | 0 <= i < |store| ensures asWritten(store[i]) == both(store[i]) {
      YearTextIsNumeric(store[i].year, RecentFirst, RecentLast);
    }
    FilterAgree(store, asWritten, both);
    FilterFilter(store, inYears, near, both);
  }

  // ---------------------------------------------------------------- load, then query

  /** Every prepared row of a well-formed date has a four-digit year. */
  lemma PreparedStoreWellFormed(rows: seq<RawRow>)
    requires forall i :: 0 <= i < |rows| ==> WellFormedDate(rows[i].dateOcc)
    requires AllValid(rows)
    ensures WellFormedStore(PrepareChunk(rows).value)
  {
    var recs := PrepareChunk(rows).value;
    forall i | 0 <= i < |recs| ensures NumericYear(recs[i].year) {
      assert PrepareRow(rows[i]) == Ok(recs[i]);
      WellFormedDateYear(rows[i]);
    }
  }

  /** Loading files whose dates are all well formed keeps a table of
      four-digit years one, whether the load completes or stops early. */
  lemma LoadKeepsWellFormed(table: seq<Record>, files: seq<seq<RawRow>>)
    requires WellFormedStore(table)
    requires forall i :: 0 <= i < |Flatten(files)| ==> WellFormedDate(Flatten(files)[i].dateOcc)
    ensures WellFormedStore(CreateDb(table, files).table)
  {
    var rows := Flatten(files);
    var n := CreateDbAppendsPrefix(table, files);
    var prefix := rows[..n];
    PreparedStoreWellFormed(prefix);
    var added := PrepareChunk(prefix).value;
    assert WellFormedStore(table + added) by {
      forall i | 0 <= i < |table + added| ensures NumericYear((table + added)[i].year) {
        if i >= |table| {
          assert (table + added)[i] == added[i - |table|];
        }
      }
    }
  }

  /** After a complete load, every loaded row with a well-formed date is found
      by the year query for its own year. */
  lemma LoadThenQuery(table: seq<Record>, files: seq<seq<RawRow>>, i: nat)
    requires CreateDb(table, files).Loaded?
    requires i < |Flatten(files)| && WellFormedDate(Flatten(files)[i].dateOcc)
    ensures PrepareRow(Flatten(files)[i]).Ok?
    ensures var y := Value(Flatten(files)[i].dateOcc[6..10]);
      PrepareRow(Flatten(files)[i]).value in QueryYears(CreateDb(table, files).table, y, y)
  {
    var rows := Flatten(files);
    CreateDbSpec(table, files);
    var recs := PrepareChunk(rows).value;
    assert PrepareRow(rows[i]) == Ok(recs[i]);
    var stored := CreateDb(table, files).table;
    assert stored == table + recs;
    assert stored[|table| + i] == recs[i];
    WellFormedDateYear(rows[i]);
  }

  /** The query as written finds the loaded row too, for the year of its own
      date, as long as that year has no leading zero. */
  lemma LoadThenQueryAsWritten(table: seq<Record>, files: seq<seq<RawRow>>, i: nat)
    requires CreateDb(table, files).Loaded?
    requires i < |Flatten(files)| && WellFormedDate(Flatten(files)[i].dateOcc)
    requires Flatten(files)[i].dateOcc[6] != '0'
    ensures PrepareRow(Flatten(files)[i]).Ok?
    ensures var y := Value(Flatten(files)[i].dateOcc[6..10]);
      PrepareRow(Flatten(files)[i]).value in QueryYearsAsWritten(CreateDb(table, files).table, y, y)
  {
    var row := Flatten(files)[i];
    var yt := row.dateOcc[6..10];
    var y := Value(yt);
    var stored := CreateDb(table, files).table;
    LoadThenQuery(table, files, i);
    var rec := PrepareRow(row).value;
    assert rec in stored;
    assert rec.year == yt by {
      WellFormedDateYear(row);
    }
    OwnYearMatches(yt);
  }

  /** A four-digit year without a leading zero lies, as text, between the
      decimal texts of its own value. */
  lemma OwnYearMatches(yt: string)
    requires NumericYear(yt) && yt[0] != '0'
    ensures YearTextBetween(yt, Value(yt), Value(yt))
  {
    var y := Value(yt);
    assert 1000 <= y <= 9999 by {
      ValueHead(yt);
      ValueBound(yt[1..]);
      assert Pow10(3) == 1000;
    }
    YearTextIsNumeric(yt, y, y);
  }

  /** A year with a leading zero is missed by the query as written, even for
      its own year: "0999" sorts after "999". */
  lemma QueryYearsLeadingZero(rec: Record)
    requires rec.year == "0999"
    ensures QueryYearsAsWritten([rec], 999, 999) == []
    ensures QueryYears([rec], 999, 999) == [rec]
  {
    assert IntToDecimal(999) == "999" by {
      assert NatToDecimal(999) == NatToDecimal(99) + [DigitChar(9)];
      assert NatToDecimal(99) == NatToDecimal(9) + [DigitChar(9)];
    }
    assert !LexLe("999", "0999");
    assert Value("0999") == 999 by {
      assert "0999"[..3] == "099" && "099"[..2] == "09" && "09"[..1] == "0" && "0"[..0] == "";
    }
    assert InYears(rec, 999, 999);
  }
}

=== FILE: results.dfy ===
/** Failure-carrying wrappers shared by the ingestion and query layers. */
module Results {

  /** A value that may be absent: a missing cell, an unmapped code, an unresolved address. */
  datatype Option<+T> = None | Some(value: T)

  /** The outcome of a step that can raise: the value, or the error it raised. */
  datatype Result<+T, +E> = Ok(value: T) | Err(error: E)

  /** Applies `f` to every item in order and stops at the first failure:
      either every item succeeds, and the values come item for item, or the
      result is an error (MapAllError says which). */
  function MapAll<A, T, E>(items: seq<A>, f: A -> Result<T, E>): (r: Result<seq<T>, E>)
    ensures r.Ok? <==> forall i {:trigger f(items[i])} :: 0 <= i < |items| ==> f(items[i]).Ok?
    ensures r.Ok? ==> |r.value| == |items|
    ensures r.Ok? ==> forall i {:trigger f(items[i])} :: 0 <= i < |items| ==> f(items[i]) == Ok(r.value[i])
  {
    if |items| == 0 then Ok([])
    else match f(items[0])
      case Err(e) => Err(e)
      case Ok(v) =>
        match MapAll(items[1..], f)
        case Err(e) =>
          assert items[1..][0] == items[1];
          Err(e)
        case Ok(vs) =>
          assert forall i :: 0 < i < |items| ==> items[i] == items[1..][i - 1];
          Ok([v] + vs)
  }

  /** The error of a failed MapAll is that of the first item that fails. */
  lemma {:induction false} MapAllError<A, T, E>(items: seq<A>, f: A -> Result<T, E>)
    requires MapAll(items, f).Err?
    ensures exists i :: 0 <= i < |items| && f(items[i]) == Err(MapAll(items, f).error)
                        && forall j :: 0 <= j < i ==> f(items[j]).Ok?
  {
    if f(items[0]).Ok? {
      MapAllError(items[1..], f);
      var i :| 0 <= i < |items[1..]| && f(items[1..][i]) == Err(MapAll(items, f).error)
               && forall j :: 0 <= j < i ==> f(items[1..][j]).Ok?;
      assert forall j :: 0 < j < i + 1 ==> items[j] == items[1..][j - 1];
      assert f(items[i + 1]) == Err(MapAll(items, f).error);
    } else {
      assert f(items[0]) == Err(MapAll(items, f).error);
    }
  }

  /** How the results of two consecutive runs combine: the first error wins. */
  function Join<T, E>(a: Result<seq<T>, E>, b: Result<seq<T>, E>): Result<seq<T>, E> {
    match a
    case Err(e) => Err(e)
    case Ok(x) =>
      match b
      case Err(e) => Err(e)
      case Ok(y) => Ok(x + y)
  }

  /** MapAll works item by item, so it commutes with splitting the items. */
  lemma {:induction false} MapAllConcat<A, T, E>(a: seq<A>, b: seq<A>, f: A -> Result<T, E>)
    ensures MapAll(a + b, f) == Join(MapAll(a, f), MapAll(b, f))
  {
    if |a| == 0 {
      assert a + b == b;
      if MapAll(b, f).Ok? {
        assert [] + MapAll(b, f).value == MapAll(b, f).value;
      }
    } else {
      assert (a + b)[0] == a[0];
      assert (a + b)[1..] == a[1..] + b;
      MapAllConcat(a[1..], b, f);
      if f(a[0]).Ok? {
        var v := f(a[0]).value;
        match MapAll(a[1..], f)
        case Err(e) =>
        case Ok(x) =>
          match MapAll(b, f)
          case Err(e) =>
          case Ok(y) =>
            assert [v] + (x + y) == ([v] + x) + y;
      }
    }
  }
}

=== FILE: text.dfy ===
/** The string operations the ingestion layer leans on: Python's `str(int)`,
    `str.zfill` and slicing, and SQLite's ordering of TEXT values. */
module Text {

  predicate IsDigit(c: char) {
    '0' <= c <= '9'
  }

  predicate AllDigits(s: string) {
    forall i :: 0 <= i < |s| ==> IsDigit(s[i])
  }

  function DigitValue(c: char): (d: nat)
    requires IsDigit(c)
    ensures d < 10
  {
    c as int - '0' as int
  }

  function DigitChar(d: nat): (c: char)
    requires d < 10
    ensures IsDigit(c) && DigitValue(c) == d
  {
    ('0' as int + d) as char
  }

  function Pow10(k: nat): (p: nat)
    ensures 1 <= p
  {
    if k == 0 then 1 else 10 * Pow10(k - 1)
  }

  lemma {:induction false} Pow10Monotone(i: nat, j: nat)
    requires i <= j
    ensures Pow10(i) <= Pow10(j)
    decreases j
  {
    if i < j {
      Pow10Monotone(i, j - 1);
    }
  }

  /** The number a string of decimal digits denotes, most significant digit first. */
  function Value(s: string): nat
    requires AllDigits(s)
  {
    if |s| == 0 then 0 else Value(s[..|s| - 1]) * 10 + DigitValue(s[|s| - 1])
  }

  lemma {:induction false} ValueBound(s: string)
    requires AllDigits(s)
    ensures Value(s) < Pow10(|s|)
  {
    if |s| > 0 {
      ValueBound(s[..|s| - 1]);
    }
  }

  /** `k` characters '0'. */
  function Zeros(k: nat): (z: string)
    ensures |z| == k && AllDigits(z)
  {
    if k == 0 then [] else Zeros(k - 1) + ['0']
  }

  lemma {:induction false} ValueOfZeros(k: nat)
    ensures Value(Zeros(k)) == 0
  {
    if k > 0 {
      assert Zeros(k)[..k - 1] == Zeros(k - 1);
      ValueOfZeros(k - 1);
    }
  }

  /** One more digit multiplies the weight of everything before it by ten. */
  lemma ShiftByDigit(x: nat, p: nat, y: nat, d: nat)
    ensures (x * p + y) * 10 + d == x * (10 * p) + (y * 10 + d)
  {
  }

  /** Appending digits shifts the value of the prefix by a power of ten. */
  lemma {:induction false} ValueConcat(a: string, b: string)
    requires AllDigits(a) && AllDigits(b)
    ensures AllDigits(a + b)
    ensures Value(a + b) == Value(a) * Pow10(|b|) + Value(b)
  {
    if |b| == 0 {
      assert a + b == a;
    } else {
      var b' := b[..|b| - 1];
      var d := DigitValue(b[|b| - 1]);
      assert (a + b)[..|a + b| - 1] == a + b';
      ValueConcat(a, b');
      assert Value(a + b) == Value(a + b') * 10 + d;
      assert Value(b) == Value(b') * 10 + d by {
        assert b[..|b| - 1] == b';
      }
      ShiftByDigit(Value(a), Pow10(|b'|), Value(b'), d);
    }
  }

  /** The leading digit weighs `Pow10(|s| - 1)`. */
  lemma {:induction false} ValueHead(s: string)
    requires AllDigits(s) && 0 < |s|
    ensures Value(s) == DigitValue(s[0]) * Pow10(|s| - 1) + Value(s[1..])
  {
    assert s == [s[0]] + s[1..];
    assert [s[0]][..0] == [];
    ValueConcat([s[0]], s[1..]);
  }

  /** The decimal rendering of a natural number, as Python's `str` gives it:
      no leading zeros, and reading it back gives the number. */
  function NatToDecimal(n: nat): (s: string)
    ensures 0 < |s| && AllDigits(s)
    ensures Value(s) == n
    ensures 1 < |s| ==> s[0] != '0'
  {
    if n < 10 then
      var one := [DigitChar(n)];
      assert one[..0] == [];
      one
    else
      var prefix := NatToDecimal(n / 10);
      var whole := prefix + [DigitChar(n % 10)];
      assert whole[..|whole| - 1] == prefix;
      whole
  }

  /** A number has at most `k` decimal digits exactly when it is below `10^k`. */
  lemma {:induction false} DecimalLength(n: nat, k: nat)
    requires 1 <= k
    ensures |NatToDecimal(n)| <= k <==> n < Pow10(k)
  {
    var s := NatToDecimal(n);
    if |s| <= k {
      ValueBound(s);
      Pow10Monotone(|s|, k);
    }
    if n < Pow10(k) && 10 <= n && 1 < k {
      DecimalLength(n / 10, k - 1);
    }
  }

  /** Python's `str(n)` for an int: a minus sign, then the digits of `|n|`. */
  function IntToDecimal(n: int): (s: string)
    ensures 0 < |s|
    ensures s[0] == '-' <==> n < 0
    ensures 0 <= n ==> AllDigits(s) && Value(s) == n
    ensures n < 0 ==> s[1..] == NatToDecimal(-n)
  {
    if n < 0 then "-" + NatToDecimal(-n) else NatToDecimal(n)
  }

  /** Python's `str.zfill(width)`: left-pad with '0' up to `width`; a leading sign
      stays in front of the padding. */
  function ZFill(s: string, width: nat): (r: string)
    ensures |r| == if |s| < width then width else |s|
    ensures 0 < |s| && s[0] == '-' ==> r[0] == '-'
    ensures width <= |s| ==> r == s
  {
    if width <= |s| then s
    else if 0 < |s| && (s[0] == '-' || s[0] == '+') then [s[0]] + Zeros(width - |s|) + s[1..]
    else Zeros(width - |s|) + s
  }

  /** Zero-padding a digit string keeps the number it denotes. */
  lemma {:induction false} ZFillDigits(s: string, width: nat)
    requires AllDigits(s) && |s| <= width
    ensures AllDigits(ZFill(s, width)) && Value(ZFill(s, width)) == Value(s)
  {
    if |s| < width {
      var z := Zeros(width - |s|);
      assert 0 < |s| ==> IsDigit(s[0]);
      assert ZFill(s, width) == z + s;
      ValueConcat(z, s);
      ValueOfZeros(width - |s|);
      assert Value(z + s) == 0 * Pow10(|s|) + Value(s);
    }
  }

  /** Python's slice `s[i:j]` for non-negative bounds: both are clamped to the
      length, and a reversed range is empty. */
  function Slice(s: string, i: nat, j: nat): (r: string)
    ensures i <= j <= |s| ==> r == s[i..j]
    ensures i <= |s| <= j ==> r == s[i..]
    ensures |s| <= i || j <= i ==> r == []
    ensures |r| <= if i <= j then j - i else 0
  {
    var lo := if i < |s| then i else |s|;
    var hi := if j < |s| then j else |s|;
    if lo <= hi then s[lo..hi] else []
  }

  /** `s <= t` under SQLite's BINARY collation: the first differing character
      decides, and a proper prefix sorts first. */
  predicate LexLe(s: string, t: string)
    ensures s <= t ==> LexLe(s, t)
    ensures |t| < |s| && t == s[..|t|] ==> !LexLe(s, t)
  {
    if |s| == 0 then true
    else if |t| == 0 then false
    else if s[0] != t[0] then s[0] < t[0]
    else LexLe(s[1..], t[1..])
  }

  /** A smaller leading digit outweighs any tail below the place value `p`. */
  lemma LeadingDigitDecides(a: nat, b: nat, p: nat, x: nat, y: nat)
    requires a < b && x < p
    ensures a * p + x < b * p + y
  {
    calc {
      a * p + x;
    <
      a * p + p;
    ==
      (a + 1) * p;
    <=  { assert a + 1 <= b; MulMonotone(a + 1, b, p); }
      b * p;
    <=
      b * p + y;
    }
  }

  lemma {:induction false} MulMonotone(a: nat, b: nat, p: nat)
    requires a <= b
    ensures a * p <= b * p
    decreases b - a
  {
    if a < b {
      MulMonotone(a + 1, b, p);
    }
  }

  /** On digit strings of one length, text order is numeric order. */
  lemma {:induction false} LexLeDigits(s: string, t: string)
    requires |s| == |t| && AllDigits(s) && AllDigits(t)
    ensures LexLe(s, t) <==> Value(s) <= Value(t)
  {
    if |s| > 0 {
      var p := Pow10(|s| - 1);
      ValueHead(s);
      ValueHead(t);
      ValueBound(s[1..]);
      ValueBound(t[1..]);
      var ds, dt := DigitValue(s[0]), DigitValue(t[0]);
      if s[0] == t[0] {
        LexLeDigits(s[1..], t[1..]);
      } else if s[0] < t[0] {
        LeadingDigitDecides(ds, dt, p, Value(s[1..]), Value(t[1..]));
      } else {
        LeadingDigitDecides(dt, ds, p, Value(t[1..]), Value(s[1..]));
      }
    }
  }
}
